=== FILE: README.md ===
# Student expense ledger: a verified model of its data pipeline

This project models the data logic in `two/Matplot_Demo2.py`, a script that analyses a
per-student, per-day expense ledger. Each ledger row has a `student_id`, a `date`, five
spending categories and a derived `total`:

- `food`
- `study_materials`
- `transport`
- `entertainment`
- `daily_supplies`

The model covers four pieces:

- **Sample ledger** (`generate_sample_data`). The raw sampler draws are clipped and rounded,
  or looked up in the fixed choice lists. Then the `total` column is added and the rows are
  sorted by `(student_id, date)`. Modules `Generation` and `Records`.
- **Category-share view** (`plot_expense_distribution_pie`). This is the column sums, each
  one's percentage of the grand total, and the labels and colours that go with each category.
  Module `CategoryShare`.
- **Student-trend view** (`plot_student_expense_trend`). This is one student's rows in date
  order, the early return when there are none, the per-category and total means, and each
  category's guarded share of the mean total. Module `StudentTrend`.
- **Calendar view** (`plot_expense_time_analysis`). The `month` and `weekday` columns are added
  to the global frame in place. Then `total` is grouped by month (mean, sum, count), and the
  mean per weekday goes into seven slots, Monday to Sunday. Module `TimeAnalysis`, with the
  class `Frame` for the mutated global `df`.

Supporting modules:

- `Calendar`: dates are day offsets from 2023-09-01, which was a Friday. It has a Gregorian
  month walk with leap years, the weekday, and a cross-check against Zeller's congruence.
- `Text`: Python's string order and `:04d` formatting.
- `Sorting`: a stable insertion sort under a total preorder.
- `Sums`: sums and percentage shares.
- `Options`: an optional value.
- `Pipeline`: the script's own run (two/Matplot_Demo2.py:212-228). It shows that the
  generated ledger makes the pie and the default student trend well defined.

Amounts are integers, because the sampler rounds them or draws them from integer lists. Means
and percentages are exact reals. The random number generator is outside the model. Its
outputs are the input of `Generation.GenerateSampleData`, one `Draw` per row:

- a student index and a date index;
- the raw normal or exponential value for `food`, `study_materials` and `entertainment`;
- a position in each of the two choice lists, for `transport` and `daily_supplies`.

Several behaviours of the code are easy to expect differently. The model follows the code
in each case:

- **Zero grand total.** A guarded version would report 0 percent for every category of an
  empty ledger. The code divides by the grand total without a guard
  (two/Matplot_Demo2.py:58), and pandas then gives NaN. The model requires a non-zero grand
  total instead of inventing a result. `Pipeline.PieIsDefined` shows that the generated
  ledger always has a positive grand total.
- **Month order.** The months are not listed in the order in which they first occur.
  `groupby('month')` sorts the month numbers ascending, and the model does the same.
- **Fixed sizes.** The record and student counts are not parameters. The code fixes them at
  1000 records and 10 students.
- **Date range.** The date range is not sized to the number of records. The code's range
  2023-09-01..2023-12-10 has 101 days, and `[:n_records]` keeps all of them.
- **Student means.** There are no running averages. The code computes plain means over all
  of the student's rows.

## Model

| member | source | states |
|---|---|---|
| Generation.StudentIds | two/Matplot_Demo2.py:15 | there are ten identifiers, and position `i` holds the label of student number `i + 1` |
| Generation.StudentIdsWrittenOut | two/Matplot_Demo2.py:15 | the population is exactly `STU_0001` … `STU_0010`, in that order |
| Generation.StudentLabelSpellsNumber | two/Matplot_Demo2.py:15 | a label is `STU_` followed by four digits whose decimal value is the student's number |
| Generation.StudentLabelOrder | two/Matplot_Demo2.py:15 | zero-padded labels compare like their numbers under Python's string order, and two labels are equal only for equal numbers; so the `student_id` sort orders students numerically |
| Text.ZeroPaddedRoundTrip | two/Matplot_Demo2.py:15 | reading back a `{i:04d}` rendering gives `i` again |
| Generation.SampleDates | two/Matplot_Demo2.py:17 | the sampled calendar is 101 consecutive days, offset `i` at position `i` |
| Calendar.SampledRangeDate | two/Matplot_Demo2.py:17 | offsets 0..100 are 2023-09-01..30, 2023-10-01..31, 2023-11-01..30 and 2023-12-01..10, in order |
| Calendar.SampledRangeBounds | two/Matplot_Demo2.py:17 | every sampled date lies from 2023-09-01 to 2023-12-10; the first and last offsets are those two dates |
| Calendar.SampledRangeMonotonic | two/Matplot_Demo2.py:17 | a later offset is a later-or-equal calendar date, and a strictly later offset is a different date, so later offsets are strictly later dates |
| Generation.Clip | two/Matplot_Demo2.py:22-26 | `np.clip` lands inside `[lo, hi]`, keeps values already inside, and maps values below or above to the bound |
| Generation.RoundHalfEven | two/Matplot_Demo2.py:22-26 | `np.round` gives an integer within 1/2 of its argument, and a tie goes to the even neighbour |
| Generation.ClipRound | two/Matplot_Demo2.py:22-26 | a clipped and rounded draw is exactly `lo` for a raw value at or below `lo`, exactly `hi` at or above `hi`, and otherwise the integer within 1/2 of the raw value, a tie going to the even one |
| Generation.ChoiceValueSets | two/Matplot_Demo2.py:24-27 | the transport list draws from {0,5,10,15,20} and the supplies list from {0,5,10,20,30}, each value occurring |
| Generation.SampleRow | two/Matplot_Demo2.py:20-27 | a post-processed draw has the label of the drawn student, the drawn day, food in [5,80], study materials in [0,50], entertainment in [0,80], and transport and supplies in their value sets |
| Generation.SampleRows | two/Matplot_Demo2.py:19-28 | the `data` columns have one row per draw, row `i` being the post-processed draw `i` |
| Generation.SampledRowInRanges | two/Matplot_Demo2.py:20-27 | every post-processed draw has food in [5,80], study materials in [0,50], entertainment in [0,80], transport and supplies in their value sets, an id from the population and a date in the range |
| Generation.WithTotal | two/Matplot_Demo2.py:31 | the added `total` equals the sum of the five amounts, and no other field changes |
| Generation.AddTotalColumn | two/Matplot_Demo2.py:31 | the `total` column is added to every row, in row order |
| Generation.GenerateSampleData | two/Matplot_Demo2.py:12-35 | the generated ledger has 1000 rows, is a permutation of the unsorted rows with totals, is sorted by `(student_id, date)`, and every row has a consistent total and in-range fields |
| Records.StudentDateLeIsTotalPreorder | two/Matplot_Demo2.py:33 | the `(student_id, date)` order is total and transitive, so sorting by it is well defined |
| Records.SortByStudentDate | two/Matplot_Demo2.py:33 | the sorted ledger is a permutation of the input and ascending by `(student_id, date)` |
| Sorting.InsertionSort | two/Matplot_Demo2.py:33 | under a total preorder the result is a permutation of the input and sorted pairwise |
| Records.SortByDate | two/Matplot_Demo2.py:117 | the date sort returns a permutation of its input in ascending date order |
| Records.DateSortsAgree | two/Matplot_Demo2.py:117 | any two date-ordered permutations of the same rows have the same `date` column, so every date sort, stable or not, gives the same dates in the same positions |
| Sorting.SortedNumbersAreDetermined | two/Matplot_Demo2.py:117 | two ascending number sequences with the same elements are equal |
| Records.CategoriesAreTheColumns | two/Matplot_Demo2.py:56 | the fixed category order has five entries, names each category, and has pairwise distinct column names |
| Records.CategoryTotals | two/Matplot_Demo2.py:57 | there are five totals in the fixed category order, total `i` being the column sum of category `i` |
| Records.ColumnSumOfConcat | two/Matplot_Demo2.py:57 | the column sum of two row blocks joined is the sum of their column sums |
| Records.ColumnSumOfPermutation | two/Matplot_Demo2.py:57 | a column sum does not depend on the order of the rows, so the `(student_id, date)` sort leaves the pie's totals unchanged |
| Records.TotalSumIsSumOfColumns | two/Matplot_Demo2.py:31 | for rows with consistent totals, the `total` column sums to the sum of the five category sums |
| CategoryShare.GrandTotalIsTotalSum | two/Matplot_Demo2.py:58 | for rows with consistent totals, the sum of the five category totals equals the sum of the `total` column |
| CategoryShare.CategoryPercentages | two/Matplot_Demo2.py:57-58 | with a non-zero grand total, each percentage times the grand total is its column sum times 100, and the unrounded percentages sum to exactly 100 |
| CategoryShare.ExpenseDistribution | two/Matplot_Demo2.py:56-77 | the five wedges follow the fixed category order; wedge `i` has category `i`, label `i` and colour `i`, its column sum, and that sum's percentage of the grand total |
| CategoryShare.PercentagesBetween0And100 | two/Matplot_Demo2.py:58 | with no negative amounts, every percentage lies in [0, 100] |
| StudentTrend.SelectStudent | two/Matplot_Demo2.py:110 | every selected row has the requested id, every row with that id is selected, and each occurs as often as in the ledger |
| StudentTrend.ExpenseTrend | two/Matplot_Demo2.py:110-117 | the early return happens exactly when no row has the id; otherwise the rows are non-empty, a permutation of the selection, ascending by date, and the statistics are those of these rows |
| StudentTrend.CategoryMeans | two/Matplot_Demo2.py:150-151 | each category mean times the row count is that category's column sum, in the fixed order |
| StudentTrend.TotalMean | two/Matplot_Demo2.py:163 | the mean total times the row count is the sum of the `total` column |
| StudentTrend.GuardedShare | two/Matplot_Demo2.py:167 | with a positive mean total, the share times the mean total is the category mean times 100; otherwise the share is exactly 0 |
| StudentTrend.GuardedShares | two/Matplot_Demo2.py:165-167 | the guard holds for every category, position by position |
| StudentTrend.GuardedSharesSumTo100 | two/Matplot_Demo2.py:167 | means that add up to a positive mean total give shares that add up to exactly 100 |
| StudentTrend.MeansAddUpToMeanTotal | two/Matplot_Demo2.py:163-167 | for consistent rows the five category means add up to the mean total |
| StudentTrend.TrendSharesSumTo100 | two/Matplot_Demo2.py:165-167 | in a ledger with consistent totals, a student's five shares sum to exactly 100 whenever the mean total is positive |
| StudentTrend.SelectionOfSortedLedgerInDateOrder | two/Matplot_Demo2.py:110-117 | in a ledger sorted by `(student_id, date)`, a student's selected rows are already in date order |
| StudentTrend.TrendOfSortedLedgerKeepsDates | two/Matplot_Demo2.py:110-117 | on such a ledger the date sort keeps the selection's `date` column as it was, whatever order it gives rows that share a date |
| StudentTrend.UniqueIds | two/Matplot_Demo2.py:106 | `unique()` lists each id occurring in the ledger exactly once, and nothing else; it is empty only for an empty ledger |
| StudentTrend.PlotStudentExpenseTrend | two/Matplot_Demo2.py:103-117 | a given id is shown as asked; with no id, an empty ledger makes the random choice fail, and otherwise the id shown is the unique id at position `pick`, it occurs in the ledger and has rows; the trend shown is always the `ExpenseTrend` of the id shown |
| Calendar.Month | two/Matplot_Demo2.py:174 | the month of a date is between 1 and 12 |
| Calendar.Weekday | two/Matplot_Demo2.py:178 | the weekday of a date is a number from 0 (Monday) to 6 (Sunday) |
| Calendar.DayName | two/Matplot_Demo2.py:178 | the day name of a date is one of the seven English names |
| Calendar.WeekdayAgreesWithZeller | two/Matplot_Demo2.py:178 | on every sampled date the weekday rule `(offset + 4) mod 7` agrees with Zeller's congruence for the civil date |
| Calendar.DayNameIdentifiesWeekday | two/Matplot_Demo2.py:196 | the seven day names are distinct, so a name matches exactly one weekday slot |
| TimeAnalysis.MonthColumn | two/Matplot_Demo2.py:174 | the `month` column holds each row's month number, in range 1..12 |
| TimeAnalysis.WeekdayColumn | two/Matplot_Demo2.py:178 | the `weekday` column holds each row's day name |
| TimeAnalysis.TotalColumn | two/Matplot_Demo2.py:175-179 | entry `i` of the grouped column is row `i`'s `total` |
| TimeAnalysis.GroupOf | two/Matplot_Demo2.py:175 | a month group has a positive count equal to the number of rows in that month, a sum equal to their totals' sum, and sum = mean × count |
| TimeAnalysis.GroupByMonth | two/Matplot_Demo2.py:174-175 | the groups come out in strictly ascending month order; each is the group of a month that occurs, and every month that occurs has a group |
| TimeAnalysis.MonthCountsAddUp | two/Matplot_Demo2.py:175 | the group counts add up to the number of rows |
| TimeAnalysis.SampledLedgerMonths | two/Matplot_Demo2.py:174-175 | on a ledger with dates in the sampled range there are at most four groups, all in September to December |
| TimeAnalysis.GroupMeans | two/Matplot_Demo2.py:179 | the weekday means have exactly the day names that occur as keys, each mapped to its group's mean |
| TimeAnalysis.WeekdayMeans | two/Matplot_Demo2.py:196-198 | there are exactly seven slots, Monday to Sunday; a slot holds its day's mean when that day occurs and 0 otherwise |
| TimeAnalysis.WeekdaySlotOccupied | two/Matplot_Demo2.py:178 | a weekday slot is occupied exactly when some row falls on that weekday |
| TimeAnalysis.Frame.AddMonthColumn | two/Matplot_Demo2.py:174 | the frame gains the `month` column, and its rows and other columns are unchanged |
| TimeAnalysis.Frame.AddWeekdayColumn | two/Matplot_Demo2.py:178 | the frame gains the `weekday` column, and its rows and other columns are unchanged |
| TimeAnalysis.ExpenseTimeAnalysis | two/Matplot_Demo2.py:172-198 | the analysis adds both columns to `df`, returns the month groups and the seven weekday slots computed from those columns, and the group counts add up to the row count |
| Pipeline.Script | two/Matplot_Demo2.py:212-228 | the generator's own output is a generated ledger: 1000 rows sorted by `(student_id, date)`, a positive grand total with every percentage in [0, 100], and, for any valid pick, a default trend that is shown, found, has a positive mean total and shares adding up to 100 |
| Pipeline.RowTotalAtLeastFive | two/Matplot_Demo2.py:22-31 | a generated row with a consistent total has a total of at least 5, since food is at least 5 and the other amounts are non-negative |
| Pipeline.GeneratedAmountsNonNegative | two/Matplot_Demo2.py:22-28 | every amount of a generated row is non-negative |
| Pipeline.TotalsAtLeastFive | two/Matplot_Demo2.py:22-31 | in rows from the generator every total is at least 5, so the `total` column sums to at least 5 per row |
| Pipeline.PieIsDefined | two/Matplot_Demo2.py:54-58 | on the generated ledger the grand total is positive and every category percentage lies in [0, 100] |
| Pipeline.TrendRowsAreLedgerRows | two/Matplot_Demo2.py:110-117 | every row of a student's trend is a row of the ledger |
| Pipeline.TrendTotalsOfGeneratedLedger | two/Matplot_Demo2.py:110-117 | every student present in the generated ledger has a trend whose totals are at least 5 per row |
| Pipeline.PositiveMeanTotal | two/Matplot_Demo2.py:163 | rows whose totals sum to at least 5 per row have a positive mean total |
| Pipeline.PositiveTrend | two/Matplot_Demo2.py:163-167 | such a trend has a positive mean total, so the guard at :167 never gives 0 and the shares add up to exactly 100 |
| Pipeline.TrendOfGeneratedLedger | two/Matplot_Demo2.py:110-167 | every student present in the generated ledger has a trend with a positive mean total and shares that add up to exactly 100 |
| Pipeline.DefaultTrendIsFull | two/Matplot_Demo2.py:225 | the call with no argument on the generated ledger always shows a found trend with a positive mean total and shares adding up to 100 |

## Left out

- Rendering and styling: the font set-up, figures, pies, lines, bars, legends, text placement
  and `show` (two/Matplot_Demo2.py:7-8, 64-94, 120-157, 183-210). These are calls into the
  plotting library and hold no logic.
- The CSV load and its catch-all fallback (two/Matplot_Demo2.py:39-46). This is file I/O. The
  views take any sequence of records as the ledger, and the model builds only the generated
  path.
- The random number generator: the seed, the normal, exponential and weighted draws, and their
  probabilities (two/Matplot_Demo2.py:13, 20-27). Its outputs are inputs here. The random
  choice of a default student (two/Matplot_Demo2.py:106) is an index supplied by the caller.
- Rounding to one decimal place and all number formatting (two/Matplot_Demo2.py:58, 99,
  153-168). Percentages and means are exact reals.
- Console printing.
- The four hard-coded month labels and the bar colours (two/Matplot_Demo2.py:186-187). They
  are for display only. `TimeAnalysis.SampledLedgerMonths` shows that the generated ledger
  has at most four month groups.
- Dates before 2023-09-01. A date is a day offset from that day, and a loaded file with earlier
  dates would need negative offsets.
- Floating point. The amounts are small whole numbers, so pandas' float sums of them are exact.
  Means and percentages are exact reals, not IEEE doubles.
- Tie order in the sorts: pandas' order among rows with equal keys is not modelled. The model
  uses one stable order and promises only that the result is sorted and a permutation.
  `Records.DateSortsAgree` shows that the `date` column comes out the same for every date sort.
- CategoryShare.CategoryPercentages: a zero grand total is excluded by a precondition. pandas
  would produce NaN percentages there, and the model does not represent NaN.

=== FILE: calendar.dfy ===
/** Calendar dates as day offsets from 2023-09-01, the first day of the sampled range,
    with the month number and weekday name pandas derives from a date. */
module Calendar {

  /** Days since 2023-09-01 (offset 0 is that date). */
  type Day = nat

  datatype Date = Date(year: int, month: int, day: int)

  predicate IsLeapYear(y: int)
  {
    y % 4 == 0 && (y % 100 != 0 || y % 400 == 0)
  }

  function DaysInMonth(y: int, m: int): nat
    requires 1 <= m <= 12
  {
    if m == 2 then (if IsLeapYear(y) then 29 else 28)
    else if m == 4 || m == 6 || m == 9 || m == 11 then 30
    else 31
  }

  predicate ValidDate(d: Date)
  {
    1 <= d.month <= 12 && 1 <= d.day <= DaysInMonth(d.year, d.month)
  }

  /** The date `k` days after the first day of month `m` of year `y`. */
  function DateAfter(y: int, m: int, k: nat): (d: Date)
    requires 1 <= m <= 12
    ensures ValidDate(d)
    decreases k
  {
    if k < DaysInMonth(y, m) then Date(y, m, k + 1)
    else if m == 12 then DateAfter(y + 1, 1, k - DaysInMonth(y, m))
    else DateAfter(y, m + 1, k - DaysInMonth(y, m))
  }

  /** The calendar date of a day offset. */
  function CivilDate(t: Day): (d: Date)
    ensures ValidDate(d)
  {
    DateAfter(2023, 9, t)
  }

  /** `date.dt.month`: the month number, 1 to 12. */
  function Month(t: Day): (m: int)
    ensures 1 <= m <= 12
  {
    CivilDate(t).month
  }

  /** Day of the week, Monday = 0 to Sunday = 6; 2023-09-01 was a Friday. */
  function Weekday(t: Day): (w: nat)
    ensures w < 7
  {
    (t + 4) % 7
  }

  const DayNames: seq<string> := ["Monday", "Tuesday", "Wednesday", "Thursday", "Friday", "Saturday", "Sunday"]

  /** `date.dt.day_name()`. */
  function DayName(t: Day): (name: string)
    ensures name in DayNames
  {
    DayNames[Weekday(t)]
  }

  /** The seven day names are pairwise different, so a name picks out one weekday. */
  lemma DayNamesDistinct()
    ensures |DayNames| == 7
    ensures forall i, j :: 0 <= i < j < 7 ==> DayNames[i] != DayNames[j]
  {
  }

  lemma DayNameIdentifiesWeekday(t: Day, k: nat)
    requires k < 7
    ensures DayName(t) == DayNames[k] <==> Weekday(t) == k
  {
    DayNamesDistinct();
  }

  /** Offsets 0 to 100 cover exactly 2023-09-01 to 2023-12-10, month by month. */
  lemma {:induction false} SampledRangeDate(t: Day)
    requires t <= 100
    ensures CivilDate(t) ==
      if t < 30 then Date(2023, 9, t + 1)
      else if t < 61 then Date(2023, 10, t - 29)
      else if t < 91 then Date(2023, 11, t - 60)
      else Date(2023, 12, t - 90)
  {
    if t >= 30 {
      assert DateAfter(2023, 9, t) == DateAfter(2023, 10, t - 30);
      if t >= 61 {
        assert DateAfter(2023, 10, t - 30) == DateAfter(2023, 11, t - 61);
        if t >= 91 {
          assert DateAfter(2023, 11, t - 61) == DateAfter(2023, 12, t - 91);
        }
      }
    }
  }

  /** Chronological order on calendar dates. */
  predicate DateLe(a: Date, b: Date)
  {
    a.year < b.year || (a.year == b.year && (a.month < b.month || (a.month == b.month && a.day <= b.day)))
  }

  /** Every offset 0 to 100 names a date from 2023-09-01 to 2023-12-10, the first and last
      of them being those two dates. */
  lemma SampledRangeBounds(t: Day)
    requires t <= 100
    ensures CivilDate(t).year == 2023 && 9 <= Month(t) <= 12
    ensures DateLe(Date(2023, 9, 1), CivilDate(t)) && DateLe(CivilDate(t), Date(2023, 12, 10))
    ensures t == 0 ==> CivilDate(t) == Date(2023, 9, 1)
    ensures t == 100 ==> CivilDate(t) == Date(2023, 12, 10)
  {
    SampledRangeDate(t);
  }

  /** Later offsets are later dates. */
  lemma SampledRangeMonotonic(s: Day, t: Day)
    requires s <= t <= 100
    ensures DateLe(CivilDate(s), CivilDate(t))
    ensures s < t ==> CivilDate(s) != CivilDate(t)
  {
    SampledRangeDate(s);
    SampledRangeDate(t);
  }

  /** Zeller's congruence, an independent rule for the day of the week of a Gregorian date,
      converted to Monday = 0. */
  function ZellerWeekday(d: Date): (w: int)
    ensures 0 <= w < 7
  {
    var m := if d.month <= 2 then d.month + 12 else d.month;
    var y := if d.month <= 2 then d.year - 1 else d.year;
    var k, j := y % 100, y / 100;
    var h := (d.day + (13 * (m + 1)) / 5 + k + k / 4 + j / 4 + 5 * j) % 7;
    (h + 5) % 7
  }

  /** On every sampled date the weekday rule agrees with Zeller's congruence. */
  lemma WeekdayAgreesWithZeller(t: Day)
    requires t <= 100
    ensures Weekday(t) == ZellerWeekday(CivilDate(t))
  {
    SampledRangeDate(t);
    // In 2023 the year terms of Zeller's sum are 23 + 23 / 4 + 20 / 4 + 5 * 20 = 133.
    var d := CivilDate(t);
    var monthTerm := (13 * (d.month + 1)) / 5;
    assert ZellerWeekday(d) == ((d.day + monthTerm + 133) % 7 + 5) % 7;
    if t < 30 {
      assert monthTerm == 26 && d.day == t + 1;
      ShiftMod7(t, 160);
    } else if t < 61 {
      assert monthTerm == 28 && d.day == t - 29;
      ShiftMod7(t, 132);
    } else if t < 91 {
      assert monthTerm == 31 && d.day == t - 60;
      ShiftMod7(t, 104);
    } else {
      assert monthTerm == 33 && d.day == t - 90;
      ShiftMod7(t, 76);
    }
  }

  lemma ShiftMod7(t: int, c: int)
    requires c % 7 == 6
    ensures ((t + c) % 7 + 5) % 7 == (t + 4) % 7
  {
    assert (t + c) % 7 == (t + 6) % 7;
  }
}

=== FILE: category_share.dfy ===
/** The computation behind `plot_expense_distribution_pie`: each category's column sum and
    its percentage of the grand total, paired with its display label and colour. */
module CategoryShare {
  import opened Sums
  import opened Records

  const CategoryLabels: seq<string> := ["餐饮", "学习资料", "交通", "娱乐", "日用品"]
  const PieColors: seq<string> := ["#FF9999", "#66B3FF", "#99FF99", "#FFCC99", "#C9A0DC"]

  /** `category_totals.sum()`. */
  function GrandTotal(rows: seq<Record>): (g: int)
  {
    SumInt(CategoryTotals(rows))
  }

  /** With consistent totals the grand total is also the sum of the `total` column. */
  lemma GrandTotalIsTotalSum(rows: seq<Record>)
    requires forall r :: r in rows ==> TotalConsistent(r)
    ensures GrandTotal(rows) == TotalSum(rows)
  {
    TotalSumIsSumOfColumns(rows);
  }

  /** `category_totals / category_totals.sum() * 100`, before rounding. */
  function CategoryPercentages(rows: seq<Record>): (p: seq<real>)
    requires GrandTotal(rows) != 0
    ensures |p| == |Categories|
    ensures forall i :: 0 <= i < |Categories| ==>
      p[i] * GrandTotal(rows) as real == ColumnSum(rows, Categories[i]) as real * 100.0
    ensures SumReal(p) == 100.0
  {
    var t := CategoryTotals(rows);
    var g := GrandTotal(rows) as real;
    var parts := AsReals(t);
    assert g == SumInt(t) as real;
    SumAsReals(t);
    SharesOfWholeSumTo100(parts, g);
    Shares(parts, g)
  }

  /** One wedge of the pie and its legend entry. */
  datatype Slice = Slice(category: Category, displayLabel: string, color: string, total: int, percentage: real)

  /** The five wedges in the fixed category order; the labels and colours are paired with
      the category at the same position. */
  function ExpenseDistribution(rows: seq<Record>): (slices: seq<Slice>)
    requires GrandTotal(rows) != 0
    ensures |slices| == |Categories|
    ensures forall i :: 0 <= i < |slices| ==>
      && slices[i].category == Categories[i]
      && slices[i].displayLabel == CategoryLabels[i]
      && slices[i].color == PieColors[i]
      && slices[i].total == ColumnSum(rows, Categories[i])
      && slices[i].percentage == CategoryPercentages(rows)[i]
  {
    var p := CategoryPercentages(rows);
    seq(|Categories|, i requires 0 <= i < |Categories| =>
      Slice(Categories[i], CategoryLabels[i], PieColors[i], ColumnSum(rows, Categories[i]), p[i]))
  }

  predicate NonNegativeAmounts(r: Record)
  {
    forall c :: Amount(r, c) >= 0
  }

  lemma {:induction false} NonNegativeColumnSum(rows: seq<Record>, c: Category)
    requires forall r :: r in rows ==> NonNegativeAmounts(r)
    ensures ColumnSum(rows, c) >= 0
  {
    if rows != [] {
      assert rows[0] in rows;
      NonNegativeColumnSum(rows[1..], c);
    }
  }

  /** With no negative amounts, each percentage lies between 0 and 100. */
  lemma PercentagesBetween0And100(rows: seq<Record>)
    requires forall r :: r in rows ==> NonNegativeAmounts(r)
    requires GrandTotal(rows) != 0
    ensures forall i :: 0 <= i < |Categories| ==> 0.0 <= CategoryPercentages(rows)[i] <= 100.0
  {
    var t := CategoryTotals(rows);
    var g := GrandTotal(rows);
    var p := CategoryPercentages(rows);
    assert p == Shares(AsReals(t), g as real);
    forall j | 0 <= j < |t| ensures t[j] >= 0 {
      NonNegativeColumnSum(rows, Categories[j]);
    }
    forall i | 0 <= i < |Categories| ensures 0.0 <= p[i] <= 100.0 {
      EntryAtMostSum(t, i);
      PercentBetween0And100(t[i] as real, g as real);
    }
  }
}

=== FILE: generation.dfy ===
/** `generate_sample_data`: turning the sampler's raw draws into the sorted ledger.
    The random number generator is outside the model; its draws are the input. */
module Generation {
  import opened Calendar
  import opened Text
  import opened Sorting
  import opened Records

  const NRecords: nat := 1000
  const NStudents: nat := 10

  /** `f"STU_{i:04d}"`. */
  function StudentLabel(i: nat): (id: string)
  {
    "STU_" + ZeroPadded(i, 4)
  }

  /** The student population, `STU_0001` to `STU_0010`. */
  function StudentIds(): (ids: seq<string>)
    ensures |ids| == NStudents
    ensures forall i :: 0 <= i < NStudents ==> ids[i] == StudentLabel(i + 1)
  {
    seq(NStudents, i requires 0 <= i < NStudents => StudentLabel(i + 1))
  }

  /** The label of a one-digit number `i`, whose digit is `c`. */
  lemma SmallLabel(i: nat, c: char)
    requires 1 <= i <= 9 && c == DigitChar(i)
    ensures StudentLabel(i) == ['S', 'T', 'U', '_', '0', '0', '0', c]
  {
    assert Digits(i) == [c];
    assert Zeros(3) == "000";
  }

  lemma TenthLabel()
    ensures StudentLabel(10) == "STU_0010"
  {
    assert Digits(1) == "1" && Digits(0) == "0";
    assert Digits(10) == "10";
    assert Zeros(2) == "00";
  }

  /** The ten identifiers, written out. */
  lemma StudentIdsWrittenOut()
    ensures StudentIds() == ["STU_0001", "STU_0002", "STU_0003", "STU_0004", "STU_0005",
                             "STU_0006", "STU_0007", "STU_0008", "STU_0009", "STU_0010"]
  {
    SmallLabel(1, '1');
    SmallLabel(2, '2');
    SmallLabel(3, '3');
    SmallLabel(4, '4');
    SmallLabel(5, '5');
    SmallLabel(6, '6');
    SmallLabel(7, '7');
    SmallLabel(8, '8');
    SmallLabel(9, '9');
    TenthLabel();
  }

  /** Every identifier is "STU_" and four digits that spell the student's number; so the
      ten identifiers are pairwise different. */
  lemma StudentLabelSpellsNumber(i: nat)
    requires i <= 9999
    ensures |StudentLabel(i)| == 8 && StudentLabel(i)[..4] == "STU_"
    ensures DecimalValue(StudentLabel(i)[4..]) == i
  {
    assert StudentLabel(i)[4..] == ZeroPadded(i, 4);
    ZeroPaddedRoundTrip(i, 4);
    DigitsAtMost(i, 4);
  }

  /** Labels sort in the order of the students' numbers, so sorting by `student_id` puts
      `STU_0002` before `STU_0010`. */
  lemma StudentLabelOrder(i: nat, j: nat)
    requires i <= 9999 && j <= 9999
    ensures StrLe(StudentLabel(i), StudentLabel(j)) <==> i <= j
    ensures StudentLabel(i) == StudentLabel(j) <==> i == j
  {
    StudentLabelSpellsNumber(i);
    StudentLabelSpellsNumber(j);
    var p, q := ZeroPadded(i, 4), ZeroPadded(j, 4);
    assert StudentLabel(i)[4..] == p && StudentLabel(j)[4..] == q;
    StrLeCommonPrefix("STU_", p, q);
    DigitStringOrder(p, q);
  }

  lemma {:induction false} DigitsAtMost(n: nat, k: nat)
    requires n < Pow10(k)
    ensures |Digits(n)| <= if k == 0 then 1 else k
  {
    if n >= 10 {
      DigitsAtMost(n / 10, k - 1);
    }
  }

  function Pow10(k: nat): nat
  {
    if k == 0 then 1 else 10 * Pow10(k - 1)
  }

  /** `pd.date_range('2023-09-01', '2023-12-10', freq='D')` has this many days. */
  const RangeDays: nat := 101

  /** The sampled calendar: the date range cut to its first `n_records` days. */
  function SampleDates(): (d: seq<Day>)
    ensures |d| == RangeDays
    ensures forall i :: 0 <= i < |d| ==> d[i] == i
  {
    var n := if RangeDays < NRecords then RangeDays else NRecords;
    seq(n, i => i)
  }

  /** The fixed choice lists for `transport` and `daily_supplies` (their weights are the
      sampler's concern). */
  const TransportChoices: seq<int> := [0, 0, 0, 5, 5, 10, 15, 20]
  const SuppliesChoices: seq<int> := [0, 0, 5, 10, 20, 30]

  const TransportValues: set<int> := {0, 5, 10, 15, 20}
  const SuppliesValues: set<int> := {0, 5, 10, 20, 30}

  lemma ChoiceValueSets()
    ensures (set x | x in TransportChoices) == TransportValues
    ensures (set x | x in SuppliesChoices) == SuppliesValues
  {
    assert TransportChoices[3] == 5 && TransportChoices[5] == 10;
    assert TransportChoices[6] == 15 && TransportChoices[7] == 20;
    assert SuppliesChoices[2] == 5 && SuppliesChoices[3] == 10;
    assert SuppliesChoices[4] == 20 && SuppliesChoices[5] == 30;
  }

  /** `np.clip(x, lo, hi)`. */
  function Clip(x: real, lo: real, hi: real): (r: real)
    requires lo <= hi
    ensures lo <= r <= hi
    ensures lo <= x <= hi ==> r == x
    ensures x < lo ==> r == lo
    ensures hi < x ==> r == hi
  {
    if x < lo then lo else if hi < x then hi else x
  }

  /** `np.round(x)`: the nearest integer, a tie going to the even neighbour. */
  function RoundHalfEven(x: real): (r: int)
    ensures -0.5 <= x - r as real <= 0.5
    ensures (x - r as real == 0.5 || x - r as real == -0.5) ==> r % 2 == 0
  {
    var f := x.Floor;
    var frac := x - f as real;
    if frac < 0.5 then f
    else if frac > 0.5 then f + 1
    else if f % 2 == 0 then f
    else f + 1
  }

  /** Rounding a value that lies between two integers stays between them. */
  lemma RoundStaysBetween(x: real, lo: int, hi: int)
    requires lo as real <= x <= hi as real
    ensures lo <= RoundHalfEven(x) <= hi
  {
  }

  /** A clipped and rounded normal or exponential draw. */
  function ClipRound(x: real, lo: int, hi: int): (r: int)
    requires lo <= hi
    ensures lo <= r <= hi
    ensures x <= lo as real ==> r == lo
    ensures hi as real <= x ==> r == hi
    ensures lo as real <= x <= hi as real ==>
      -0.5 <= x - r as real <= 0.5 && ((x - r as real == 0.5 || x - r as real == -0.5) ==> r % 2 == 0)
  {
    var c := Clip(x, lo as real, hi as real);
    RoundStaysBetween(c, lo, hi);
    RoundHalfEven(c)
  }

  /** One row of the sampler's output: indices into the student and date lists, the raw
      normal and exponential values, and positions in the two choice lists. */
  datatype Draw = Draw(
    student: nat,
    day: nat,
    food: real,
    studyMaterials: real,
    transport: nat,
    entertainment: real,
    dailySupplies: nat)

  predicate DrawInRange(d: Draw)
  {
    d.student < NStudents && d.day < |SampleDates()|
    && d.transport < |TransportChoices| && d.dailySupplies < |SuppliesChoices|
  }

  /** A row of the `data` dictionary, before the `total` column exists. */
  datatype Sample = Sample(
    studentId: string,
    date: Day,
    food: int,
    studyMaterials: int,
    transport: int,
    entertainment: int,
    dailySupplies: int)

  /** The post-processing applied to one draw: clip-and-round, or a lookup in a choice list. */
  function SampleRow(d: Draw): (s: Sample)
    requires DrawInRange(d)
    ensures s.studentId == StudentLabel(d.student + 1) && s.date == d.day
    ensures 5 <= s.food <= 80 && 0 <= s.studyMaterials <= 50 && 0 <= s.entertainment <= 80
    ensures s.transport in TransportValues && s.dailySupplies in SuppliesValues
  {
    ChoiceValueSets();
    assert TransportChoices[d.transport] in TransportChoices;
    assert SuppliesChoices[d.dailySupplies] in SuppliesChoices;
    Sample(
      StudentIds()[d.student],
      SampleDates()[d.day],
      ClipRound(d.food, 5, 80),
      ClipRound(d.studyMaterials, 0, 50),
      TransportChoices[d.transport],
      ClipRound(d.entertainment, 0, 80),
      SuppliesChoices[d.dailySupplies])
  }

  function SampleRows(draws: seq<Draw>): (rows: seq<Sample>)
    requires forall d :: d in draws ==> DrawInRange(d)
    ensures |rows| == |draws|
    ensures forall i :: 0 <= i < |draws| ==> rows[i] == SampleRow(draws[i])
  {
    seq(|draws|, i requires 0 <= i < |draws| => SampleRow(draws[i]))
  }

  /** A sampled row with its `total` column filled in. */
  function WithTotal(s: Sample): (r: Record)
    ensures TotalConsistent(r)
    ensures r.studentId == s.studentId && r.date == s.date
    ensures Amounts(r) == [s.food, s.studyMaterials, s.transport, s.entertainment, s.dailySupplies]
  {
    AmountsSum(Record(s.studentId, s.date, s.food, s.studyMaterials, s.transport, s.entertainment, s.dailySupplies, 0));
    Record(s.studentId, s.date, s.food, s.studyMaterials, s.transport, s.entertainment, s.dailySupplies,
           s.food + s.studyMaterials + s.transport + s.entertainment + s.dailySupplies)
  }

  /** `df['total'] = df['food'] + ... + df['daily_supplies']`, row by row. */
  function AddTotalColumn(rows: seq<Sample>): (df: seq<Record>)
    ensures |df| == |rows|
    ensures forall i :: 0 <= i < |rows| ==> df[i] == WithTotal(rows[i])
  {
    seq(|rows|, i requires 0 <= i < |rows| => WithTotal(rows[i]))
  }

  /** What every generated row satisfies, whatever the raw draws were. */
  predicate InSampledRanges(r: Record)
  {
    && 5 <= r.food <= 80
    && 0 <= r.studyMaterials <= 50
    && r.transport in TransportValues
    && 0 <= r.entertainment <= 80
    && r.dailySupplies in SuppliesValues
    && r.studentId in StudentIds()
    && r.date < RangeDays
  }

  lemma SampledRowInRanges(d: Draw)
    requires DrawInRange(d)
    ensures InSampledRanges(WithTotal(SampleRow(d)))
  {
  }

  /** `generate_sample_data()`, from the sampler's draws on: build the frame, add the
      `total` column, sort by `(student_id, date)`. */
  method GenerateSampleData(draws: seq<Draw>) returns (df: seq<Record>)
    requires |draws| == NRecords
    requires forall d :: d in draws ==> DrawInRange(d)
    ensures |df| == NRecords
    ensures multiset(df) == multiset(AddTotalColumn(SampleRows(draws)))
    ensures SortedBy(df, StudentDateLe)
    ensures forall r :: r in df ==> TotalConsistent(r) && InSampledRanges(r)
  {
    var data := SampleRows(draws);
    var frame := AddTotalColumn(data);
    forall r | r in frame ensures TotalConsistent(r) && InSampledRanges(r) {
      var i :| 0 <= i < |frame| && frame[i] == r;
      SampledRowInRanges(draws[i]);
    }
    frame := SortByStudentDate(frame);
    df := frame;
    assert |multiset(df)| == |multiset(AddTotalColumn(data))|;
    forall r | r in df ensures TotalConsistent(r) && InSampledRanges(r) {
      assert r in multiset(df);
    }
  }
}

=== FILE: options.dfy ===
/** An optional value, for Python's `None` default arguments. */
module Options {
  datatype Option<T> = None | Some(value: T)
}

=== FILE: pipeline.dfy ===
/** The script's run: the pie and the default student trend drawn from the generated ledger.
    These lemmas show that the ledger `Generation.GenerateSampleData` promises meets the
    conditions under which both views are well defined. */
module Pipeline {
  import opened Sums
  import opened Options
  import opened Records
  import opened Sorting
  import opened Generation
  import opened CategoryShare
  import opened StudentTrend

  /** What `GenerateSampleData` guarantees about its result. */
  predicate GeneratedLedger(rows: seq<Record>)
  {
    rows != [] && forall r :: r in rows ==> TotalConsistent(r) && InSampledRanges(r)
  }

  /** Food is at least 5 and every other amount is non-negative, so a total is at least 5. */
  lemma RowTotalAtLeastFive(r: Record)
    requires TotalConsistent(r) && InSampledRanges(r)
    ensures r.total >= 5
  {
    AmountsSum(r);
  }

  /** The script's run from the sampler's draws: the generated ledger meets both views'
      conditions, so the pie is defined and the default trend is full. */
  method Script(draws: seq<Draw>, pick: nat) returns (df: seq<Record>)
    requires |draws| == NRecords
    requires forall d :: d in draws ==> DrawInRange(d)
    ensures |df| == NRecords && SortedBy(df, StudentDateLe)
    ensures GeneratedLedger(df)
    ensures GrandTotal(df) > 0
    ensures forall i :: 0 <= i < |Categories| ==> 0.0 <= CategoryPercentages(df)[i] <= 100.0
    ensures pick < |UniqueIds(df)| ==> PlotStudentExpenseTrend(df, None, pick).Shown?
    ensures pick < |UniqueIds(df)| ==> PlotStudentExpenseTrend(df, None, pick).trend.Found?
    ensures pick < |UniqueIds(df)| ==> PlotStudentExpenseTrend(df, None, pick).trend.view.meanTotal > 0.0
    ensures pick < |UniqueIds(df)| ==> SumReal(PlotStudentExpenseTrend(df, None, pick).trend.view.shares) == 100.0
  {
    df := GenerateSampleData(draws);
    assert GeneratedLedger(df);
    PieIsDefined(df);
    if pick < |UniqueIds(df)| {
      DefaultTrendIsFull(df, pick);
    }
  }

  /** Every amount the generator draws is non-negative. */
  lemma GeneratedAmountsNonNegative(r: Record)
    requires InSampledRanges(r)
    ensures NonNegativeAmounts(r)
  {
    var t, d := r.transport, r.dailySupplies;
    assert t in TransportValues && d in SuppliesValues;
    assert t >= 0 && d >= 0;
    forall c: Category ensures Amount(r, c) >= 0 {
      match c
      case Food =>
      case StudyMaterials =>
      case Transport =>
      case Entertainment =>
      case DailySupplies =>
    }
  }

  /** So every generated row has a total of at least 5, and the `total` column sums to at
      least 5 per row. */
  lemma {:induction false} TotalsAtLeastFive(rows: seq<Record>)
    requires forall r :: r in rows ==> TotalConsistent(r) && InSampledRanges(r)
    ensures forall r :: r in rows ==> r.total >= 5
    ensures TotalSum(rows) >= 5 * |rows|
  {
    forall r | r in rows ensures r.total >= 5 {
      RowTotalAtLeastFive(r);
    }
    if rows != [] {
      assert rows[0] in rows;
      TotalsAtLeastFive(rows[1..]);
    }
  }

  /** The pie at two/Matplot_Demo2.py:219 divides by a positive grand total, and every
      percentage lies in [0, 100]. */
  lemma PieIsDefined(rows: seq<Record>)
    requires GeneratedLedger(rows)
    ensures GrandTotal(rows) > 0
    ensures forall i :: 0 <= i < |Categories| ==> 0.0 <= CategoryPercentages(rows)[i] <= 100.0
  {
    TotalsAtLeastFive(rows);
    GrandTotalIsTotalSum(rows);
    forall r | r in rows ensures NonNegativeAmounts(r) {
      GeneratedAmountsNonNegative(r);
    }
    PercentagesBetween0And100(rows);
  }

  /** A mean of totals that are at least 5 each is positive. */
  lemma PositiveMeanTotal(rows: seq<Record>)
    requires rows != [] && TotalSum(rows) >= 5 * |rows|
    ensures TotalMean(rows) > 0.0
  {
    var m, n, t := TotalMean(rows), |rows| as real, TotalSum(rows) as real;
    assert m * n == t && n > 0.0 && t > 0.0;
    assert (-m) * n == -t;
  }

  /** A trend's rows are rows of the ledger. */
  lemma TrendRowsAreLedgerRows(ledger: seq<Record>, id: string)
    requires ExpenseTrend(ledger, id).Found?
    ensures forall r :: r in ExpenseTrend(ledger, id).view.rows ==> r in ledger
  {
    var v := ExpenseTrend(ledger, id).view;
    forall r | r in v.rows ensures r in ledger {
      assert r in multiset(v.rows);
      assert r in SelectStudent(ledger, id);
    }
  }

  /** Every student of the generated ledger has rows, each with a total of at least 5. */
  lemma TrendTotalsOfGeneratedLedger(rows: seq<Record>, id: string)
    requires GeneratedLedger(rows)
    requires exists r :: r in rows && r.studentId == id
    ensures ExpenseTrend(rows, id).Found?
    ensures TotalSum(ExpenseTrend(rows, id).view.rows) >= 5 * |ExpenseTrend(rows, id).view.rows|
  {
    var t := ExpenseTrend(rows, id);
    assert t.Found?;
    TrendRowsAreLedgerRows(rows, id);
    TotalsAtLeastFive(t.view.rows);
  }

  /** Rows whose totals are at least 5 have a positive mean total, so the guard never fires
      and the shares add up to exactly 100. */
  lemma PositiveTrend(rows: seq<Record>, id: string)
    requires forall r :: r in rows ==> TotalConsistent(r)
    requires ExpenseTrend(rows, id).Found?
    requires TotalSum(ExpenseTrend(rows, id).view.rows) >= 5 * |ExpenseTrend(rows, id).view.rows|
    ensures ExpenseTrend(rows, id).view.meanTotal > 0.0
    ensures SumReal(ExpenseTrend(rows, id).view.shares) == 100.0
  {
    PositiveMeanTotal(ExpenseTrend(rows, id).view.rows);
    TrendSharesSumTo100(rows, id);
  }

  /** So every student of the generated ledger has a full trend. */
  lemma TrendOfGeneratedLedger(rows: seq<Record>, id: string)
    requires GeneratedLedger(rows)
    requires exists r :: r in rows && r.studentId == id
    ensures ExpenseTrend(rows, id).Found?
    ensures ExpenseTrend(rows, id).view.meanTotal > 0.0
    ensures SumReal(ExpenseTrend(rows, id).view.shares) == 100.0
  {
    TrendTotalsOfGeneratedLedger(rows, id);
    PositiveTrend(rows, id);
  }

  /** So the call with no argument at two/Matplot_Demo2.py:225 always shows a full trend. */
  lemma DefaultTrendIsFull(rows: seq<Record>, pick: nat)
    requires GeneratedLedger(rows)
    requires pick < |UniqueIds(rows)|
    ensures PlotStudentExpenseTrend(rows, None, pick).Shown?
    ensures PlotStudentExpenseTrend(rows, None, pick).trend.Found?
    ensures PlotStudentExpenseTrend(rows, None, pick).trend.view.meanTotal > 0.0
    ensures SumReal(PlotStudentExpenseTrend(rows, None, pick).trend.view.shares) == 100.0
  {
    var id := UniqueIds(rows)[pick];
    assert id in UniqueIds(rows);
    TrendOfGeneratedLedger(rows, id);
  }
}

=== FILE: records.dfy ===
/** One row of the expense ledger, its five spending categories, column sums, and the
    `(student_id, date)` order the ledger is kept in. */
module Records {
  import opened Calendar
  import opened Text
  import opened Sorting
  import opened Sums

  datatype Category = Food | StudyMaterials | Transport | Entertainment | DailySupplies

  /** The fixed column order: food, study_materials, transport, entertainment, daily_supplies. */
  const Categories: seq<Category> := [Food, StudyMaterials, Transport, Entertainment, DailySupplies]

  function ColumnName(c: Category): string
  {
    match c
    case Food => "food"
    case StudyMaterials => "study_materials"
    case Transport => "transport"
    case Entertainment => "entertainment"
    case DailySupplies => "daily_supplies"
  }

  /** Each category has its own column, and the fixed order lists each one exactly once. */
  lemma CategoriesAreTheColumns()
    ensures |Categories| == 5
    ensures forall c: Category :: c in Categories
    ensures forall i, j :: 0 <= i < j < |Categories| ==> ColumnName(Categories[i]) != ColumnName(Categories[j])
  {
    forall c: Category ensures c in Categories {
      match c
      case Food => assert Categories[0] == c;
      case StudyMaterials => assert Categories[1] == c;
      case Transport => assert Categories[2] == c;
      case Entertainment => assert Categories[3] == c;
      case DailySupplies => assert Categories[4] == c;
    }
  }

  /** A ledger row. Amounts are whole numbers (the sampler rounds them); `total` is a column
      of its own, normally the sum of the five amounts. */
  datatype Record = Record(
    studentId: string,
    date: Day,
    food: int,
    studyMaterials: int,
    transport: int,
    entertainment: int,
    dailySupplies: int,
    total: int)

  function Amount(r: Record, c: Category): int
  {
    match c
    case Food => r.food
    case StudyMaterials => r.studyMaterials
    case Transport => r.transport
    case Entertainment => r.entertainment
    case DailySupplies => r.dailySupplies
  }

  /** The amounts of a row in the fixed category order. */
  function Amounts(r: Record): (a: seq<int>)
    ensures |a| == |Categories|
    ensures forall i :: 0 <= i < |Categories| ==> a[i] == Amount(r, Categories[i])
  {
    [r.food, r.studyMaterials, r.transport, r.entertainment, r.dailySupplies]
  }

  /** The row's `total` equals the sum of its five amounts. */
  predicate TotalConsistent(r: Record)
  {
    r.total == SumInt(Amounts(r))
  }

  lemma AmountsSum(r: Record)
    ensures SumInt(Amounts(r)) == r.food + r.studyMaterials + r.transport + r.entertainment + r.dailySupplies
  {
    var a := Amounts(r);
    assert SumInt(a[4..]) == r.dailySupplies + SumInt(a[5..]);
    assert SumInt(a[3..]) == r.entertainment + SumInt(a[4..]);
    assert SumInt(a[2..]) == r.transport + SumInt(a[3..]);
    assert SumInt(a[1..]) == r.studyMaterials + SumInt(a[2..]);
  }

  /** `df[c].sum()`. */
  function ColumnSum(rows: seq<Record>, c: Category): (sum: int)
  {
    if rows == [] then 0 else Amount(rows[0], c) + ColumnSum(rows[1..], c)
  }

  lemma {:induction false} ColumnSumOfConcat(a: seq<Record>, b: seq<Record>, c: Category)
    ensures ColumnSum(a + b, c) == ColumnSum(a, c) + ColumnSum(b, c)
  {
    if a == [] {
      assert a + b == b;
    } else {
      assert (a + b)[1..] == a[1..] + b;
      ColumnSumOfConcat(a[1..], b, c);
    }
  }

  /** A column sum does not depend on the order of the rows, so sorting the ledger does not
      change it. */
  lemma {:induction false} ColumnSumOfPermutation(a: seq<Record>, b: seq<Record>, c: Category)
    requires multiset(a) == multiset(b)
    ensures ColumnSum(a, c) == ColumnSum(b, c)
    decreases |a|
  {
    if a == [] {
      assert |multiset(b)| == 0;
    } else {
      var k := PermutationWithoutHead(a, b);
      ColumnSumOfPermutation(a[1..], b[..k] + b[k + 1..], c);
      assert b == b[..k] + [b[k]] + b[k + 1..];
      ColumnSumOfConcat(b[..k] + [b[k]], b[k + 1..], c);
      ColumnSumOfConcat(b[..k], [b[k]], c);
      ColumnSumOfConcat(b[..k], b[k + 1..], c);
    }
  }

  /** `df['total'].sum()`. */
  function TotalSum(rows: seq<Record>): (sum: int)
  {
    if rows == [] then 0 else rows[0].total + TotalSum(rows[1..])
  }

  /** The five column sums, in the fixed category order. */
  function CategoryTotals(rows: seq<Record>): (t: seq<int>)
    ensures |t| == |Categories|
    ensures forall i :: 0 <= i < |Categories| ==> t[i] == ColumnSum(rows, Categories[i])
  {
    seq(|Categories|, i requires 0 <= i < |Categories| => ColumnSum(rows, Categories[i]))
  }

  /** When every row's total is consistent, the total column sums to the sum of the five
      category sums. */
  lemma {:induction false} TotalSumIsSumOfColumns(rows: seq<Record>)
    requires forall r :: r in rows ==> TotalConsistent(r)
    ensures TotalSum(rows) == SumInt(CategoryTotals(rows))
  {
    if rows != [] {
      TotalSumIsSumOfColumns(rows[1..]);
      var t, t' := CategoryTotals(rows), CategoryTotals(rows[1..]);
      var a := Amounts(rows[0]);
      assert forall i :: 0 <= i < 5 ==> t[i] == a[i] + t'[i];
      SumIntPointwise(t, a, t');
      assert rows[0] in rows && TotalConsistent(rows[0]);
    } else {
      SumOfZeros(CategoryTotals(rows));
    }
  }

  /** The ledger order: by `student_id` (as Python orders strings), then by date. */
  predicate StudentDateLe(a: Record, b: Record)
  {
    if a.studentId != b.studentId then StrLe(a.studentId, b.studentId) else a.date <= b.date
  }

  predicate DateOrderLe(a: Record, b: Record)
  {
    a.date <= b.date
  }

  /** The `date` column. */
  function Dates(rows: seq<Record>): (d: seq<int>)
    ensures |d| == |rows|
    ensures forall i :: 0 <= i < |rows| ==> d[i] == rows[i].date
  {
    seq(|rows|, i requires 0 <= i < |rows| => rows[i].date)
  }

  lemma {:induction false} DatesOfPermutation(a: seq<Record>, b: seq<Record>)
    requires multiset(a) == multiset(b)
    ensures multiset(Dates(a)) == multiset(Dates(b))
    decreases |a|
  {
    if a == [] {
      assert |multiset(b)| == 0;
    } else {
      var k := PermutationWithoutHead(a, b);
      var rest := b[..k] + b[k + 1..];
      DatesOfPermutation(a[1..], rest);
      assert Dates(a) == [a[0].date] + Dates(a[1..]);
      assert Dates(b) == Dates(b[..k]) + [b[k].date] + Dates(b[k + 1..]);
      assert Dates(rest) == Dates(b[..k]) + Dates(b[k + 1..]);
    }
  }

  /** Any two date-ordered arrangements of the same rows have the same date column: a date
      sort decides everything but the order among rows that share a date. */
  lemma DateSortsAgree(a: seq<Record>, b: seq<Record>)
    requires multiset(a) == multiset(b)
    requires SortedBy(a, DateOrderLe) && SortedBy(b, DateOrderLe)
    ensures Dates(a) == Dates(b)
  {
    DatesOfPermutation(a, b);
    var x, y := Dates(a), Dates(b);
    forall i, j | 0 <= i < j < |x| ensures x[i] <= x[j] {
      assert DateOrderLe(a[i], a[j]);
    }
    forall i, j | 0 <= i < j < |y| ensures y[i] <= y[j] {
      assert DateOrderLe(b[i], b[j]);
    }
    SortedNumbersAreDetermined(x, y);
  }

  lemma StudentDateLeIsTotalPreorder()
    ensures TotalPreorder(StudentDateLe)
  {
    forall a: Record, b: Record ensures StudentDateLe(a, b) || StudentDateLe(b, a) {
      StrLeTotal(a.studentId, b.studentId);
    }
    forall a: Record, b: Record, c: Record | StudentDateLe(a, b) && StudentDateLe(b, c)
      ensures StudentDateLe(a, c)
    {
      if a.studentId != b.studentId && b.studentId != c.studentId {
        StrLeTransitive(a.studentId, b.studentId, c.studentId);
        if a.studentId == c.studentId {
          StrLeAntisymmetric(a.studentId, b.studentId);
        }
      }
    }
  }

  /** `sort_values(['student_id', 'date'])`. */
  function SortByStudentDate(rows: seq<Record>): (r: seq<Record>)
    ensures multiset(r) == multiset(rows)
    ensures SortedBy(r, StudentDateLe)
  {
    StudentDateLeIsTotalPreorder();
    InsertionSort(rows, StudentDateLe)
  }

  /** `sort_values('date')`. */
  function SortByDate(rows: seq<Record>): (r: seq<Record>)
    ensures multiset(r) == multiset(rows)
    ensures SortedBy(r, DateOrderLe)
  {
    InsertionSort(rows, DateOrderLe)
  }
}

=== FILE: sorting.dfy ===
/** A stable insertion sort under a total preorder, standing for pandas' `sort_values`. */
module Sorting {

  ghost predicate Total<T(!new)>(le: (T, T) -> bool)
  {
    forall a, b :: le(a, b) || le(b, a)
  }

  ghost predicate Transitive<T(!new)>(le: (T, T) -> bool)
  {
    forall a, b, c :: le(a, b) && le(b, c) ==> le(a, c)
  }

  ghost predicate TotalPreorder<T(!new)>(le: (T, T) -> bool)
  {
    Total(le) && Transitive(le)
  }

  /** Every earlier element is `le` every later one. */
  ghost predicate SortedBy<T>(s: seq<T>, le: (T, T) -> bool)
  {
    forall i, j :: 0 <= i < j < |s| ==> le(s[i], s[j])
  }

  function Insert<T(!new)>(x: T, s: seq<T>, le: (T, T) -> bool): (r: seq<T>)
    ensures multiset(r) == multiset(s) + multiset{x}
  {
    if s == [] then [x]
    else if le(x, s[0]) then [x] + s
    else
      assert s == [s[0]] + s[1..];
      [s[0]] + Insert(x, s[1..], le)
  }

  /** A lower bound of `x` and of every element of `s` is a lower bound of the insertion. */
  lemma {:induction false} InsertKeepsLowerBound<T(!new)>(h: T, x: T, s: seq<T>, le: (T, T) -> bool)
    requires le(h, x)
    requires forall k :: 0 <= k < |s| ==> le(h, s[k])
    ensures forall j :: 0 <= j < |Insert(x, s, le)| ==> le(h, Insert(x, s, le)[j])
  {
    if s != [] && !le(x, s[0]) {
      InsertKeepsLowerBound(h, x, s[1..], le);
      assert Insert(x, s, le) == [s[0]] + Insert(x, s[1..], le);
    }
  }

  /** Inserting into a sorted sequence keeps it sorted. */
  lemma {:induction false} InsertSorted<T(!new)>(x: T, s: seq<T>, le: (T, T) -> bool)
    requires TotalPreorder(le) && SortedBy(s, le)
    ensures SortedBy(Insert(x, s, le), le)
  {
    if s != [] {
      if le(x, s[0]) {
        InsertBeforeHeadSorted(x, s, le);
      } else {
        var rest := Insert(x, s[1..], le);
        InsertSorted(x, s[1..], le);
        assert le(s[0], x);
        forall k | 0 <= k < |s[1..]| ensures le(s[0], s[1..][k]) {
          assert le(s[0], s[k + 1]);
        }
        InsertKeepsLowerBound(s[0], x, s[1..], le);
        assert Insert(x, s, le) == [s[0]] + rest;
        ConsSorted(s[0], rest, le);
      }
    }
  }

  /** An element at most the head of a sorted sequence can go in front of it. */
  lemma InsertBeforeHeadSorted<T(!new)>(x: T, s: seq<T>, le: (T, T) -> bool)
    requires TotalPreorder(le) && SortedBy(s, le) && s != [] && le(x, s[0])
    ensures SortedBy([x] + s, le)
  {
    forall k | 0 <= k < |s| ensures le(x, s[k]) {
      if k > 0 {
        assert le(s[0], s[k]);
      }
    }
    ConsSorted(x, s, le);
  }

  /** A lower bound of a sorted sequence can go in front of it. */
  lemma ConsSorted<T>(h: T, s: seq<T>, le: (T, T) -> bool)
    requires SortedBy(s, le)
    requires forall k :: 0 <= k < |s| ==> le(h, s[k])
    ensures SortedBy([h] + s, le)
  {
    var r := [h] + s;
    forall i, j | 0 <= i < j < |r| ensures le(r[i], r[j]) {
      if i == 0 {
        assert r[j] == s[j - 1];
      } else {
        assert r[i] == s[i - 1] && r[j] == s[j - 1];
      }
    }
  }

  function InsertionSort<T(!new)>(s: seq<T>, le: (T, T) -> bool): (r: seq<T>)
    requires TotalPreorder(le)
    ensures multiset(r) == multiset(s)
    ensures SortedBy(r, le)
  {
    if s == [] then []
    else
      assert s == [s[0]] + s[1..];
      InsertSorted(s[0], InsertionSort(s[1..], le), le);
      Insert(s[0], InsertionSort(s[1..], le), le)
  }

  /** Every earlier number is at most every later one. */
  predicate Ascending(x: seq<int>)
  {
    forall i, j :: 0 <= i < j < |x| ==> x[i] <= x[j]
  }

  /** The first number of an ascending sequence is its least. */
  lemma HeadIsLeast(x: seq<int>, v: int)
    requires Ascending(x) && v in x
    ensures x[0] <= v
  {
    var l :| 0 <= l < |x| && x[l] == v;
    if l > 0 {
      assert x[0] <= x[l];
    }
  }

  lemma AscendingTail(x: seq<int>)
    requires Ascending(x) && x != []
    ensures Ascending(x[1..])
  {
    forall i, j | 0 <= i < j < |x| - 1 ensures x[1..][i] <= x[1..][j] {
      assert x[i + 1] <= x[j + 1];
    }
  }

  lemma WithoutHead<T>(x: seq<T>)
    requires x != []
    ensures multiset(x[1..]) == multiset(x) - multiset{x[0]}
  {
    assert x == [x[0]] + x[1..];
  }

  lemma WithoutAt<T>(x: seq<T>, k: nat)
    requires k < |x|
    ensures multiset(x[..k] + x[k + 1..]) == multiset(x) - multiset{x[k]}
  {
    assert x == x[..k] + [x[k]] + x[k + 1..];
  }

  /** Two ascending sequences with the same elements start with the same number, and the
      rest have the same elements again. */
  lemma SameHead(x: seq<int>, y: seq<int>) returns (h: int)
    requires Ascending(x) && Ascending(y) && x != [] && y != []
    requires multiset(x) == multiset(y)
    ensures h == x[0] == y[0]
    ensures multiset(x[1..]) == multiset(y[1..])
  {
    assert x[0] in multiset(y);
    HeadIsLeast(y, x[0]);
    assert y[0] in multiset(x);
    HeadIsLeast(x, y[0]);
    h := x[0];
    WithoutHead(x);
    WithoutHead(y);
  }

  lemma {:induction false} AscendingDetermined(x: seq<int>, y: seq<int>)
    requires Ascending(x) && Ascending(y)
    requires multiset(x) == multiset(y)
    ensures x == y
  {
    if x == [] {
      assert |multiset(y)| == 0;
    } else {
      assert x[0] in multiset(y);
      var h := SameHead(x, y);
      AscendingTail(x);
      AscendingTail(y);
      AscendingDetermined(x[1..], y[1..]);
      assert x == [h] + x[1..] && y == [h] + y[1..];
    }
  }

  /** Two ascending sequences of numbers with the same elements are equal: a sorted
      sequence of numbers is fixed by its multiset, whatever sort produced it. */
  lemma SortedNumbersAreDetermined(x: seq<int>, y: seq<int>)
    requires forall i, j :: 0 <= i < j < |x| ==> x[i] <= x[j]
    requires forall i, j :: 0 <= i < j < |y| ==> y[i] <= y[j]
    requires multiset(x) == multiset(y)
    ensures x == y
  {
    AscendingDetermined(x, y);
  }

  /** A permutation of a non-empty sequence holds its first element somewhere; without it the
      rest are still a permutation of each other. */
  lemma PermutationWithoutHead<T>(a: seq<T>, b: seq<T>) returns (k: nat)
    requires a != [] && multiset(a) == multiset(b)
    ensures k < |b| && b[k] == a[0]
    ensures multiset(a[1..]) == multiset(b[..k] + b[k + 1..])
  {
    assert a[0] in multiset(b);
    k :| 0 <= k < |b| && b[k] == a[0];
    WithoutHead(a);
    WithoutAt(b, k);
  }
}

=== FILE: student_trend.dfy ===
/** The computation behind `plot_student_expense_trend`: one student's rows in date order,
    the per-category and total means, and each category's share of the mean total. */
module StudentTrend {
  import opened Sums
  import opened Sorting
  import opened Options
  import opened Records

  /** `df[df['student_id'] == id]`: the student's rows. The contract states which rows and how
      often; that they keep ledger order is a property of the body, which
      `SelectionOfSortedLedgerInDateOrder` uses. */
  function SelectStudent(ledger: seq<Record>, id: string): (sel: seq<Record>)
    ensures forall r :: r in sel ==> r.studentId == id
    ensures forall r :: r in ledger && r.studentId == id ==> r in sel
    ensures forall r :: multiset(sel)[r] == if r.studentId == id then multiset(ledger)[r] else 0
  {
    if ledger == [] then []
    else
      assert ledger == [ledger[0]] + ledger[1..];
      var rest := SelectStudent(ledger[1..], id);
      if ledger[0].studentId == id then [ledger[0]] + rest else rest
  }

  /** `student_data[c].mean()` for the five categories, in the fixed order. */
  function CategoryMeans(rows: seq<Record>): (m: seq<real>)
    requires rows != []
    ensures |m| == |Categories|
    ensures forall i :: 0 <= i < |Categories| ==> m[i] * |rows| as real == ColumnSum(rows, Categories[i]) as real
  {
    Quotients(AsReals(CategoryTotals(rows)), |rows| as real)
  }

  /** `student_data['total'].mean()`. */
  function TotalMean(rows: seq<Record>): (m: real)
    requires rows != []
    ensures m * |rows| as real == TotalSum(rows) as real
  {
    TotalSum(rows) as real * (1.0 / |rows| as real)
  }

  /** A category's percentage of the mean total, defined as 0 unless the mean total is positive. */
  function GuardedShare(avg: real, meanTotal: real): (p: real)
    ensures meanTotal > 0.0 ==> p * meanTotal == avg * 100.0
    ensures meanTotal <= 0.0 ==> p == 0.0
  {
    if meanTotal > 0.0 then Percent(avg, meanTotal) else 0.0
  }

  /** The guarded share of every category mean, in the same order. */
  function GuardedShares(means: seq<real>, meanTotal: real): (p: seq<real>)
    ensures |p| == |means|
    ensures forall i :: 0 <= i < |means| ==>
      (meanTotal > 0.0 ==> p[i] * meanTotal == means[i] * 100.0) && (meanTotal <= 0.0 ==> p[i] == 0.0)
  {
    seq(|means|, i requires 0 <= i < |means| => GuardedShare(means[i], meanTotal))
  }

  /** When the means make up a positive mean total, the guarded shares add up to exactly 100. */
  lemma GuardedSharesSumTo100(means: seq<real>, meanTotal: real)
    requires meanTotal > 0.0 && SumReal(means) == meanTotal
    ensures SumReal(GuardedShares(means, meanTotal)) == 100.0
  {
    var s := Shares(means, meanTotal);
    SharesOfWholeSumTo100(means, meanTotal);
    assert GuardedShares(means, meanTotal) == s;
  }

  /** For rows whose totals are consistent, the category means add up to the mean total. */
  lemma MeansAddUpToMeanTotal(rows: seq<Record>)
    requires rows != []
    requires forall r :: r in rows ==> TotalConsistent(r)
    ensures SumReal(CategoryMeans(rows)) == TotalMean(rows)
  {
    var t := CategoryTotals(rows);
    TotalSumIsSumOfColumns(rows);
    SumAsReals(t);
    SumOfQuotients(AsReals(t), |rows| as real);
  }

  datatype TrendView = TrendView(
    studentId: string,
    rows: seq<Record>,
    totalSum: int,
    means: seq<real>,
    meanTotal: real,
    shares: seq<real>)

  /** `NoRecords` is the early return when the student has no rows. */
  datatype Trend = NoRecords(missing: string) | Found(view: TrendView)

  /** The trend view of one student. */
  function ExpenseTrend(ledger: seq<Record>, id: string): (t: Trend)
    ensures t.NoRecords? <==> forall r :: r in ledger ==> r.studentId != id
    ensures t.NoRecords? ==> t.missing == id
    ensures t.Found? ==>
      var v := t.view;
      && v.studentId == id
      && v.rows != []
      && multiset(v.rows) == multiset(SelectStudent(ledger, id))
      && SortedBy(v.rows, DateOrderLe)
      && v.totalSum == TotalSum(v.rows)
      && v.means == CategoryMeans(v.rows)
      && v.meanTotal == TotalMean(v.rows)
      && v.shares == GuardedShares(v.means, v.meanTotal)
  {
    var selected := SelectStudent(ledger, id);
    if |selected| == 0 then
      assert forall r :: r in ledger ==> r.studentId != id;
      NoRecords(id)
    else
      assert selected[0] in multiset(selected);
      assert selected[0] in ledger;
      var rows := SortByDate(selected);
      assert rows[0] in multiset(rows);
      var means := CategoryMeans(rows);
      var meanTotal := TotalMean(rows);
      Found(TrendView(id, rows, TotalSum(rows), means, meanTotal, GuardedShares(means, meanTotal)))
  }

  /** For a ledger with consistent totals, a student's shares add up to exactly 100 whenever
      the mean total is positive. */
  lemma TrendSharesSumTo100(ledger: seq<Record>, id: string)
    requires forall r :: r in ledger ==> TotalConsistent(r)
    requires ExpenseTrend(ledger, id).Found? && ExpenseTrend(ledger, id).view.meanTotal > 0.0
    ensures SumReal(ExpenseTrend(ledger, id).view.shares) == 100.0
  {
    var v := ExpenseTrend(ledger, id).view;
    forall r | r in v.rows ensures TotalConsistent(r) {
      assert r in multiset(v.rows);
      assert r in SelectStudent(ledger, id);
    }
    MeansAddUpToMeanTotal(v.rows);
    GuardedSharesSumTo100(v.means, v.meanTotal);
  }

  /** A row of student `id` that is at most every ledger row in the ledger order is at most
      every selected row in date order. */
  lemma {:induction false} SelectionAbove(h: Record, ledger: seq<Record>, id: string)
    requires h.studentId == id
    requires forall k :: 0 <= k < |ledger| ==> StudentDateLe(h, ledger[k])
    ensures forall j :: 0 <= j < |SelectStudent(ledger, id)| ==> DateOrderLe(h, SelectStudent(ledger, id)[j])
  {
    if ledger != [] {
      assert StudentDateLe(h, ledger[0]);
      SelectionAbove(h, ledger[1..], id);
    }
  }

  /** In a ledger sorted by `(student_id, date)` a student's rows are already in date order.
      This rests on the mask keeping ledger order, a property of `SelectStudent`'s body. */
  lemma {:induction false} SelectionOfSortedLedgerInDateOrder(ledger: seq<Record>, id: string)
    requires SortedBy(ledger, StudentDateLe)
    ensures SortedBy(SelectStudent(ledger, id), DateOrderLe)
  {
    if ledger != [] {
      var rest := SelectStudent(ledger[1..], id);
      SelectionOfSortedLedgerInDateOrder(ledger[1..], id);
      if ledger[0].studentId == id {
        forall k | 0 <= k < |ledger[1..]| ensures StudentDateLe(ledger[0], ledger[1..][k]) {
          assert StudentDateLe(ledger[0], ledger[k + 1]);
        }
        SelectionAbove(ledger[0], ledger[1..], id);
        assert SelectStudent(ledger, id) == [ledger[0]] + rest;
        ConsSorted(ledger[0], rest, DateOrderLe);
      } else {
        assert SelectStudent(ledger, id) == rest;
      }
    }
  }

  /** So on the generated ledger the date sort keeps the selection's date column as it was,
      whatever order it gives to rows that share a date. */
  lemma TrendOfSortedLedgerKeepsDates(ledger: seq<Record>, id: string)
    requires SortedBy(ledger, StudentDateLe)
    requires ExpenseTrend(ledger, id).Found?
    ensures Dates(ExpenseTrend(ledger, id).view.rows) == Dates(SelectStudent(ledger, id))
  {
    SelectionOfSortedLedgerInDateOrder(ledger, id);
    DateSortsAgree(ExpenseTrend(ledger, id).view.rows, SelectStudent(ledger, id));
  }

  /** `df['student_id'].unique()`. The contract states which identifiers appear, once each;
      their order of first appearance is a property of the body only, and the random pick
      makes no use of it. */
  function UniqueIds(ledger: seq<Record>): (ids: seq<string>)
    ensures forall x :: x in ids <==> exists r :: r in ledger && r.studentId == x
    ensures forall i, j :: 0 <= i < j < |ids| ==> ids[i] != ids[j]
    ensures |ids| == 0 <==> ledger == []
  {
    if ledger == [] then []
    else
      var last := ledger[|ledger| - 1];
      var front := ledger[..|ledger| - 1];
      assert ledger == front + [last];
      var ids := UniqueIds(front);
      if last.studentId in ids then ids else ids + [last.studentId]
  }

  /** What the trend call shows: `EmptyChoice` is the failure of `np.random.choice` on an
      empty ledger when no student was given. */
  datatype TrendOutcome = EmptyChoice | Shown(studentId: string, trend: Trend)

  /** `plot_student_expense_trend(student_id)`: with no identifier given, the student at
      position `pick` of the unique identifiers (the random choice) is shown. */
  function PlotStudentExpenseTrend(ledger: seq<Record>, requested: Option<string>, pick: nat): (o: TrendOutcome)
    requires requested.None? && ledger != [] ==> pick < |UniqueIds(ledger)|
    ensures requested.Some? ==> o == Shown(requested.value, ExpenseTrend(ledger, requested.value))
    ensures requested.None? ==> (o.EmptyChoice? <==> ledger == [])
    ensures requested.None? && ledger != [] ==> o.Shown? && o.studentId == UniqueIds(ledger)[pick]
    ensures requested.None? && o.Shown? ==>
      (exists r :: r in ledger && r.studentId == o.studentId) && o.trend.Found?
    ensures o.Shown? ==> o.trend == ExpenseTrend(ledger, o.studentId)
  {
    match requested
    case Some(id) => Shown(id, ExpenseTrend(ledger, id))
    case None =>
      var ids := UniqueIds(ledger);
      if |ids| == 0 then EmptyChoice
      else
        var id := ids[pick];
        assert id in ids;
        Shown(id, ExpenseTrend(ledger, id))
  }
}

=== FILE: sums.dfy ===
/** Sums and percentage shares over finite sequences of numbers. */
module Sums {

  function SumInt(s: seq<int>): (sum: int)
  {
    if s == [] then 0 else s[0] + SumInt(s[1..])
  }

  function SumReal(s: seq<real>): (sum: real)
  {
    if s == [] then 0.0 else s[0] + SumReal(s[1..])
  }

  /** Summing a pointwise sum of two sequences. */
  lemma {:induction false} SumIntPointwise(s: seq<int>, a: seq<int>, b: seq<int>)
    requires |s| == |a| == |b|
    requires forall i :: 0 <= i < |s| ==> s[i] == a[i] + b[i]
    ensures SumInt(s) == SumInt(a) + SumInt(b)
  {
    if s != [] {
      SumIntPointwise(s[1..], a[1..], b[1..]);
    }
  }

  lemma {:induction false} SumOfZeros(s: seq<int>)
    requires forall i :: 0 <= i < |s| ==> s[i] == 0
    ensures SumInt(s) == 0
  {
    if s != [] {
      SumOfZeros(s[1..]);
    }
  }

  /** The integers of `s`, read as reals. */
  function AsReals(s: seq<int>): (r: seq<real>)
    ensures |r| == |s|
    ensures forall i :: 0 <= i < |s| ==> r[i] == s[i] as real
  {
    seq(|s|, i requires 0 <= i < |s| => s[i] as real)
  }

  lemma {:induction false} SumAsReals(s: seq<int>)
    ensures SumReal(AsReals(s)) == SumInt(s) as real
  {
    if s != [] {
      assert AsReals(s)[1..] == AsReals(s[1..]);
      SumAsReals(s[1..]);
    }
  }

  /** The percentage that `part` makes of `whole`, `part / whole * 100`. */
  function Percent(part: real, whole: real): (p: real)
    requires whole != 0.0
    ensures p * whole == part * 100.0
  {
    part * (100.0 / whole)
  }

  /** A part between nothing and the whole is between 0 and 100 percent of it. */
  lemma PercentBetween0And100(part: real, whole: real)
    requires 0.0 <= part <= whole && whole > 0.0
    ensures 0.0 <= Percent(part, whole) <= 100.0
  {
    var k := 100.0 / whole;
    assert k * whole == 100.0;
    assert (whole - part) * k == 100.0 - part * k;
  }

  /** Every element of `parts` as a percentage of `whole`, in the same order. */
  function Shares(parts: seq<real>, whole: real): (r: seq<real>)
    requires whole != 0.0
    ensures |r| == |parts|
    ensures forall i :: 0 <= i < |parts| ==> r[i] == Percent(parts[i], whole)
    ensures forall i :: 0 <= i < |parts| ==> r[i] * whole == parts[i] * 100.0
  {
    if parts == [] then []
    else [Percent(parts[0], whole)] + Shares(parts[1..], whole)
  }

  /** Shares add up to the percentage that the sum of the parts makes of the whole. */
  lemma {:induction false} SumOfShares(parts: seq<real>, whole: real)
    requires whole != 0.0
    ensures SumReal(Shares(parts, whole)) == Percent(SumReal(parts), whole)
  {
    if parts != [] {
      var rest := Shares(parts[1..], whole);
      assert Shares(parts, whole)[1..] == rest;
      SumOfShares(parts[1..], whole);
      var x, s, k := parts[0], SumReal(parts[1..]), 100.0 / whole;
      assert x * k + s * k == (x + s) * k;
    }
  }

  /** When the parts make up the whole, their shares add up to exactly 100. */
  lemma SharesOfWholeSumTo100(parts: seq<real>, whole: real)
    requires whole != 0.0 && SumReal(parts) == whole
    ensures SumReal(Shares(parts, whole)) == 100.0
  {
    SumOfShares(parts, whole);
  }

  /** A non-negative entry never exceeds the sum of non-negative entries. */
  lemma {:induction false} EntryAtMostSum(s: seq<int>, i: nat)
    requires i < |s|
    requires forall j :: 0 <= j < |s| ==> s[j] >= 0
    ensures 0 <= s[i] <= SumInt(s)
  {
    NonNegativeSum(s[1..]);
    if i > 0 {
      EntryAtMostSum(s[1..], i - 1);
    }
  }

  lemma {:induction false} NonNegativeSum(s: seq<int>)
    requires forall j :: 0 <= j < |s| ==> s[j] >= 0
    ensures SumInt(s) >= 0
  {
    if s != [] {
      NonNegativeSum(s[1..]);
    }
  }

  /** Every element of `xs` divided by `d`, in the same order. */
  function Quotients(xs: seq<real>, d: real): (r: seq<real>)
    requires d != 0.0
    ensures |r| == |xs|
    ensures forall i :: 0 <= i < |xs| ==> r[i] * d == xs[i]
  {
    if xs == [] then [] else [xs[0] * (1.0 / d)] + Quotients(xs[1..], d)
  }

  lemma {:induction false} SumOfQuotients(xs: seq<real>, d: real)
    requires d != 0.0
    ensures SumReal(Quotients(xs, d)) == SumReal(xs) * (1.0 / d)
  {
    if xs != [] {
      assert Quotients(xs, d)[1..] == Quotients(xs[1..], d);
      SumOfQuotients(xs[1..], d);
      var x, s, k := xs[0], SumReal(xs[1..]), 1.0 / d;
      assert x * k + s * k == (x + s) * k;
    }
  }
}

=== FILE: text.dfy ===
/** Strings as Python compares and formats them: code-point lexicographic order and
    zero-padded decimal formatting. */
module Text {

  /** Python's `a <= b` on str: lexicographic by code point, a proper prefix first. */
  predicate StrLe(a: string, b: string)
  {
    if a == [] then true
    else if b == [] then false
    else if a[0] != b[0] then a[0] < b[0]
    else StrLe(a[1..], b[1..])
  }

  lemma {:induction false} StrLeTotal(a: string, b: string)
    ensures StrLe(a, b) || StrLe(b, a)
  {
    if a != [] && b != [] && a[0] == b[0] {
      StrLeTotal(a[1..], b[1..]);
    }
  }

  lemma {:induction false} StrLeAntisymmetric(a: string, b: string)
    requires StrLe(a, b) && StrLe(b, a)
    ensures a == b
  {
    if a != [] && b != [] {
      StrLeAntisymmetric(a[1..], b[1..]);
      assert a == [a[0]] + a[1..] && b == [b[0]] + b[1..];
    }
  }

  lemma {:induction false} StrLeTransitive(a: string, b: string, c: string)
    requires StrLe(a, b) && StrLe(b, c)
    ensures StrLe(a, c)
  {
    if a != [] && b != [] && c != [] && a[0] == b[0] && b[0] == c[0] {
      StrLeTransitive(a[1..], b[1..], c[1..]);
    }
  }

  function DigitChar(d: nat): (c: char)
    requires d < 10
    ensures '0' <= c <= '9'
  {
    ['0', '1', '2', '3', '4', '5', '6', '7', '8', '9'][d]
  }

  function DigitValue(c: char): nat
  {
    if '0' <= c <= '9' then (c as int - '0' as int) as nat else 0
  }

  predicate AllDigits(s: string)
  {
    forall i :: 0 <= i < |s| ==> '0' <= s[i] <= '9'
  }

  /** Decimal digits of `n`, most significant first, without leading zeros. */
  function Digits(n: nat): (s: string)
    ensures 1 <= |s| && AllDigits(s)
  {
    if n < 10 then [DigitChar(n)] else Digits(n / 10) + [DigitChar(n % 10)]
  }

  /** The number a string of decimal digits stands for. */
  function DecimalValue(s: string): nat
  {
    if s == [] then 0 else DecimalValue(s[..|s| - 1]) * 10 + DigitValue(s[|s| - 1])
  }

  lemma DigitValueOfChar(d: nat)
    requires d < 10
    ensures DigitValue(DigitChar(d)) == d
  {
  }

  lemma {:induction false} DigitsRoundTrip(n: nat)
    ensures DecimalValue(Digits(n)) == n
  {
    if n < 10 {
      DigitValueOfChar(n);
      assert Digits(n)[..0] == [];
    } else {
      var s, q, r := Digits(n), n / 10, n % 10;
      assert s == Digits(q) + [DigitChar(r)];
      assert s[..|s| - 1] == Digits(q) && s[|s| - 1] == DigitChar(r);
      DigitsRoundTrip(q);
      DigitValueOfChar(r);
      assert n == q * 10 + r;
    }
  }

  /** `k` zero digits. */
  function Zeros(k: nat): (z: string)
    ensures |z| == k && AllDigits(z)
  {
    seq(k, _ => '0')
  }

  /** Python's `f"{n:0wd}"` for a non-negative `n`: digits left-padded with '0' to width `w`. */
  function ZeroPadded(n: nat, w: nat): (s: string)
    ensures |s| == if |Digits(n)| < w then w else |Digits(n)|
    ensures AllDigits(s)
  {
    var d := Digits(n);
    if |d| < w then Zeros(w - |d|) + d else d
  }

  lemma {:induction false} LeadingZerosKeepValue(k: nat, d: string)
    ensures DecimalValue(Zeros(k) + d) == DecimalValue(d)
    decreases |d|
  {
    var z := Zeros(k);
    if d == [] {
      assert z + d == z;
      ZerosHaveNoValue(k);
    } else {
      assert (z + d)[..|z + d| - 1] == z + d[..|d| - 1];
      LeadingZerosKeepValue(k, d[..|d| - 1]);
    }
  }

  lemma {:induction false} ZerosHaveNoValue(k: nat)
    ensures DecimalValue(Zeros(k)) == 0
  {
    if k > 0 {
      assert Zeros(k)[..k - 1] == Zeros(k - 1);
      ZerosHaveNoValue(k - 1);
    }
  }

  /** A padded rendering is some zeros followed by the digits. */
  lemma ZeroPaddedShape(n: nat, w: nat) returns (k: nat)
    ensures ZeroPadded(n, w) == Zeros(k) + Digits(n)
  {
    var d := Digits(n);
    if |d| < w {
      k := w - |d|;
    } else {
      k := 0;
      assert Zeros(0) + d == d;
    }
  }

  /** Zero padding never changes the number that is printed. */
  lemma ZeroPaddedRoundTrip(n: nat, w: nat)
    ensures DecimalValue(ZeroPadded(n, w)) == n
  {
    var k := ZeroPaddedShape(n, w);
    LeadingZerosKeepValue(k, Digits(n));
    DigitsRoundTrip(n);
  }

  /** A common prefix does not change the order. */
  lemma {:induction false} StrLeCommonPrefix(p: string, a: string, b: string)
    ensures StrLe(p + a, p + b) == StrLe(a, b)
  {
    if p == [] {
      assert p + a == a && p + b == b;
    } else {
      assert (p + a)[1..] == p[1..] + a && (p + b)[1..] == p[1..] + b;
      StrLeCommonPrefix(p[1..], a, b);
    }
  }

  /** Order of equal-length strings, read from the last character: the prefixes decide, and
      equal prefixes leave it to the last character. */
  lemma {:induction false} StrLeByLast(a: string, b: string)
    requires |a| == |b| > 0
    ensures StrLe(a, b) <==>
      if a[..|a| - 1] != b[..|b| - 1] then StrLe(a[..|a| - 1], b[..|b| - 1]) else a[|a| - 1] <= b[|b| - 1]
  {
    if |a| > 1 && a[0] == b[0] {
      StrLeByLast(a[1..], b[1..]);
      assert a[1..][..|a| - 2] == a[..|a| - 1][1..];
      assert b[1..][..|b| - 2] == b[..|b| - 1][1..];
      if a[..|a| - 1] == b[..|b| - 1] {
        assert a[1..][..|a| - 2] == b[1..][..|b| - 2];
      } else {
        assert a[..|a| - 1] == [a[0]] + a[..|a| - 1][1..];
        assert b[..|b| - 1] == [b[0]] + b[..|b| - 1][1..];
      }
    }
  }

  /** For digit strings of one length, string order is numeric order. */
  lemma {:induction false} DigitStringOrder(a: string, b: string)
    requires |a| == |b| && AllDigits(a) && AllDigits(b)
    ensures StrLe(a, b) <==> DecimalValue(a) <= DecimalValue(b)
    decreases |a|
  {
    if |a| > 0 {
      var n := |a|;
      var pa, pb := a[..n - 1], b[..n - 1];
      DigitStringOrder(pa, pb);
      DigitStringOrder(pb, pa);
      StrLeByLast(a, b);
      if pa != pb {
        StrLeTotal(pa, pb);
        if StrLe(pa, pb) && StrLe(pb, pa) {
          StrLeAntisymmetric(pa, pb);
        }
        assert DecimalValue(pa) != DecimalValue(pb);
      }
    }
  }
}

=== FILE: time_analysis.dfy ===
/** The computation behind `plot_expense_time_analysis`: `total` grouped by month (mean, sum
    and count) and the mean `total` of each weekday, Monday to Sunday. */
module TimeAnalysis {
  import opened Calendar
  import opened Records
  import Generation

  /** How many keys equal `k`: the size of `k`'s group. */
  function CountKey<K(==)>(keys: seq<K>, k: K): (n: nat)
    ensures n <= |keys|
    ensures n > 0 <==> k in keys
  {
    if keys == [] then 0 else (if keys[0] == k then 1 else 0) + CountKey(keys[1..], k)
  }

  /** The sum of the totals whose key equals `k`. */
  function SumKey<K(==)>(keys: seq<K>, totals: seq<int>, k: K): (sum: int)
    requires |keys| == |totals|
  {
    if keys == [] then 0 else (if keys[0] == k then totals[0] else 0) + SumKey(keys[1..], totals[1..], k)
  }

  /** The mean of the totals whose key equals `k`, for a key that occurs. */
  function MeanKey<K(==)>(keys: seq<K>, totals: seq<int>, k: K): (m: real)
    requires |keys| == |totals| && k in keys
    ensures m * CountKey(keys, k) as real == SumKey(keys, totals, k) as real
  {
    SumKey(keys, totals, k) as real / CountKey(keys, k) as real
  }

  /** One row of `groupby('month')['total'].agg(['mean', 'sum', 'count'])`. */
  datatype MonthGroup = MonthGroup(month: int, mean: real, sum: int, count: nat)

  /** The group of the rows whose month is `k`, for a month that occurs. */
  function GroupOf(month: seq<int>, total: seq<int>, k: int): (g: MonthGroup)
    requires |month| == |total| && k in month
    ensures g.month == k && g.count > 0
    ensures g.count == CountKey(month, k) && g.sum == SumKey(month, total, k)
    ensures g.mean * g.count as real == g.sum as real
  {
    MonthGroup(k, MeanKey(month, total, k), SumKey(month, total, k), CountKey(month, k))
  }

  function MonthsOf(g: seq<MonthGroup>): (ms: seq<int>)
    ensures |ms| == |g| && forall i :: 0 <= i < |g| ==> ms[i] == g[i].month
  {
    seq(|g|, i requires 0 <= i < |g| => g[i].month)
  }

  /** The groups of the months `m` to 12 that occur, in ascending month order. */
  function MonthGroupsFrom(month: seq<int>, total: seq<int>, m: int): (g: seq<MonthGroup>)
    requires |month| == |total| && 1 <= m <= 13
    ensures forall i :: 0 <= i < |g| ==>
      m <= g[i].month <= 12 && g[i].month in month && g[i] == GroupOf(month, total, g[i].month)
    ensures forall i, j :: 0 <= i < j < |g| ==> g[i].month < g[j].month
    ensures forall k :: m <= k <= 12 && k in month ==> k in MonthsOf(g)
    decreases 13 - m
  {
    if m == 13 then []
    else
      var rest := MonthGroupsFrom(month, total, m + 1);
      if m in month then
        var g := [GroupOf(month, total, m)] + rest;
        assert forall i :: 0 < i < |g| ==> g[i] == rest[i - 1];
        assert MonthsOf(g) == [m] + MonthsOf(rest);
        g
      else rest
  }

  /** `groupby('month')['total'].agg(['mean', 'sum', 'count'])`: one group per month that
      occurs, in ascending month order, for month numbers 1 to 12. */
  function GroupByMonth(month: seq<int>, total: seq<int>): (g: seq<MonthGroup>)
    requires |month| == |total|
    requires forall i :: 0 <= i < |month| ==> 1 <= month[i] <= 12
    ensures forall i, j :: 0 <= i < j < |g| ==> g[i].month < g[j].month
    ensures forall i :: 0 <= i < |g| ==> g[i].month in month && g[i] == GroupOf(month, total, g[i].month)
    ensures forall k :: k in month <==> k in MonthsOf(g)
  {
    var g := MonthGroupsFrom(month, total, 1);
    assert forall k :: k in month ==> 1 <= k <= 12;
    g
  }

  function SumCounts(g: seq<MonthGroup>): (n: nat)
  {
    if g == [] then 0 else g[0].count + SumCounts(g[1..])
  }

  /** How many keys lie between `m` and 12. */
  function CountFrom(month: seq<int>, m: int): (n: nat)
  {
    if month == [] then 0 else (if m <= month[0] <= 12 then 1 else 0) + CountFrom(month[1..], m)
  }

  lemma {:induction false} CountFromSplits(month: seq<int>, m: int)
    requires 1 <= m <= 12
    ensures CountFrom(month, m) == CountKey(month, m) + CountFrom(month, m + 1)
  {
    if month != [] {
      CountFromSplits(month[1..], m);
    }
  }

  lemma {:induction false} GroupCountsFrom(month: seq<int>, total: seq<int>, m: int)
    requires |month| == |total| && 1 <= m <= 13
    ensures SumCounts(MonthGroupsFrom(month, total, m)) == CountFrom(month, m)
    decreases 13 - m
  {
    if m == 13 {
      CountFromNothing(month);
    } else {
      GroupCountsFrom(month, total, m + 1);
      CountFromSplits(month, m);
      var g := MonthGroupsFrom(month, total, m);
      if m in month {
        assert g[1..] == MonthGroupsFrom(month, total, m + 1);
      } else {
        assert CountKey(month, m) == 0;
      }
    }
  }

  lemma {:induction false} CountFromNothing(month: seq<int>)
    ensures CountFrom(month, 13) == 0
  {
    if month != [] {
      CountFromNothing(month[1..]);
    }
  }

  lemma {:induction false} CountFromAll(month: seq<int>)
    requires forall i :: 0 <= i < |month| ==> 1 <= month[i] <= 12
    ensures CountFrom(month, 1) == |month|
  {
    if month != [] {
      CountFromAll(month[1..]);
    }
  }

  /** Every row falls in exactly one month group: the counts add up to the number of rows. */
  lemma MonthCountsAddUp(month: seq<int>, total: seq<int>)
    requires |month| == |total|
    requires forall i :: 0 <= i < |month| ==> 1 <= month[i] <= 12
    ensures SumCounts(GroupByMonth(month, total)) == |month|
  {
    GroupCountsFrom(month, total, 1);
    CountFromAll(month);
  }

  /** On a ledger whose dates lie in the sampled range, the month groups are among September
      to December: at most four of them. */
  lemma SampledLedgerMonths(rows: seq<Record>)
    requires forall r :: r in rows ==> r.date < Generation.RangeDays
    ensures var g := GroupByMonth(MonthColumn(rows), TotalColumn(rows));
      |g| <= 4 && forall i :: 0 <= i < |g| ==> 9 <= g[i].month <= 12
  {
    var month := MonthColumn(rows);
    SampledMonthColumn(rows);
    var g := GroupByMonth(month, TotalColumn(rows));
    assert forall i :: 0 <= i < |g| ==> g[i].month in month;
    if |g| > 0 {
      AscendingFrom(g, |g| - 1);
    }
  }

  lemma SampledMonthColumn(rows: seq<Record>)
    requires forall r :: r in rows ==> r.date < Generation.RangeDays
    ensures forall k :: k in MonthColumn(rows) ==> 9 <= k <= 12
  {
    var month := MonthColumn(rows);
    forall j | 0 <= j < |month| ensures 9 <= month[j] <= 12 {
      assert rows[j] in rows;
      SampledRangeBounds(rows[j].date);
    }
  }

  lemma {:induction false} AscendingFrom(g: seq<MonthGroup>, i: nat)
    requires i < |g|
    requires forall a, b :: 0 <= a < b < |g| ==> g[a].month < g[b].month
    ensures g[0].month + i <= g[i].month
  {
    if i > 0 {
      AscendingFrom(g, i - 1);
    }
  }

  /** `groupby(key)['total'].mean()`: the mean total of each key that occurs. */
  function GroupMeans<K(==,!new)>(keys: seq<K>, totals: seq<int>): (g: map<K, real>)
    requires |keys| == |totals|
    ensures forall k :: k in g <==> k in keys
    ensures forall k :: k in g ==> g[k] == MeanKey(keys, totals, k)
  {
    map k | k in keys :: MeanKey(keys, totals, k)
  }

  /** `[weekday_expenses.get(day, 0) for day in weekdays]`: seven slots, Monday to Sunday, a
      weekday without rows reading 0. */
  function WeekdayMeans(weekday: seq<string>, total: seq<int>): (w: seq<real>)
    requires |weekday| == |total|
    ensures |w| == 7
    ensures forall k :: 0 <= k < 7 ==>
      w[k] == if DayNames[k] in weekday then MeanKey(weekday, total, DayNames[k]) else 0.0
  {
    var g := GroupMeans(weekday, total);
    seq(7, k requires 0 <= k < 7 => if DayNames[k] in g then g[DayNames[k]] else 0.0)
  }

  /** `df['date'].dt.month`. */
  function MonthColumn(rows: seq<Record>): (c: seq<int>)
    ensures |c| == |rows|
    ensures forall i :: 0 <= i < |rows| ==> c[i] == Month(rows[i].date) && 1 <= c[i] <= 12
  {
    seq(|rows|, i requires 0 <= i < |rows| => Month(rows[i].date))
  }

  /** `df['date'].dt.day_name()`. */
  function WeekdayColumn(rows: seq<Record>): (c: seq<string>)
    ensures |c| == |rows|
    ensures forall i :: 0 <= i < |rows| ==> c[i] == DayName(rows[i].date)
  {
    seq(|rows|, i requires 0 <= i < |rows| => DayName(rows[i].date))
  }

  /** `df['total']`. */
  function TotalColumn(rows: seq<Record>): (c: seq<int>)
    ensures |c| == |rows|
    ensures forall i :: 0 <= i < |rows| ==> c[i] == rows[i].total
  {
    seq(|rows|, i requires 0 <= i < |rows| => rows[i].total)
  }

  /** A weekday slot reads a mean exactly when some row falls on that weekday. */
  lemma WeekdaySlotOccupied(rows: seq<Record>, k: nat)
    requires k < 7
    ensures DayNames[k] in WeekdayColumn(rows) <==> exists i :: 0 <= i < |rows| && Weekday(rows[i].date) == k
  {
    var c := WeekdayColumn(rows);
    if DayNames[k] in c {
      var i :| 0 <= i < |c| && c[i] == DayNames[k];
      DayNameIdentifiesWeekday(rows[i].date, k);
    }
    if exists i :: 0 <= i < |rows| && Weekday(rows[i].date) == k {
      var i :| 0 <= i < |rows| && Weekday(rows[i].date) == k;
      assert c[i] == DayNames[k];
    }
  }

  /** The global frame `df` of the analysis: its ledger rows and the `month` and `weekday`
      columns that the time analysis adds to it in place (empty until added). */
  class Frame {
    var rows: seq<Record>
    var month: seq<int>
    var weekday: seq<string>

    constructor (rows: seq<Record>)
      ensures this.rows == rows && month == [] && weekday == []
    {
      this.rows := rows;
      month := [];
      weekday := [];
    }

    /** `df['month'] = df['date'].dt.month`. */
    method AddMonthColumn()
      modifies this
      ensures rows == old(rows) && weekday == old(weekday)
      ensures month == MonthColumn(rows)
    {
      month := MonthColumn(rows);
    }

    /** `df['weekday'] = df['date'].dt.day_name()`. */
    method AddWeekdayColumn()
      modifies this
      ensures rows == old(rows) && month == old(month)
      ensures weekday == WeekdayColumn(rows)
    {
      weekday := WeekdayColumn(rows);
    }
  }

  /** `plot_expense_time_analysis()` without the drawing: adds the two columns to `df`, then
      groups `total` by them. */
  method ExpenseTimeAnalysis(df: Frame) returns (monthly: seq<MonthGroup>, weekdayMeans: seq<real>)
    modifies df
    ensures df.rows == old(df.rows)
    ensures df.month == MonthColumn(df.rows) && df.weekday == WeekdayColumn(df.rows)
    ensures monthly == GroupByMonth(df.month, TotalColumn(df.rows))
    ensures SumCounts(monthly) == |df.rows|
    ensures weekdayMeans == WeekdayMeans(df.weekday, TotalColumn(df.rows))
  {
    df.AddMonthColumn();
    monthly := GroupByMonth(df.month, TotalColumn(df.rows));
    MonthCountsAddUp(df.month, TotalColumn(df.rows));
    df.AddWeekdayColumn();
    weekdayMeans := WeekdayMeans(df.weekday, TotalColumn(df.rows));
  }
}
